=== FILE: README.md ===
# HTTPRequest query-string parameters, modelled in Dafny

This project models the parameter store of `freenet.pluginmanager.HTTPRequest`,
the object Freenet hands to a plugin for each HTTP request. At construction the
class parses the raw query string once into a map from parameter name to the
ordered list of that name's values. Plugins then read the map through a small
set of accessors: `isParameterSet`, `hasParameters`, `getParam`,
`getIntParam`, `getMultipleParam` and `getMultipleIntParam`.

Layout:

- `wrappers.dfy` (`Wrappers`): `Option` for Java's `null`, `Result` for exceptions.
- `java_integer.dfy` (`JavaInteger`): `Integer.parseInt`, modelled concretely.
  It accepts an optional `+` or `-`, then one or more decimal digits, with the
  value inside the 32-bit `int` range. `ToDecimal` is a right inverse:
  `ParseInt(ToDecimal(x)) == Some(x)` (`ParseIntRoundTrip`). It is not a left
  inverse, since `"7"`, `"+7"` and `"007"` all parse to 7.
- `query_tokenizer.dfy` (`QueryTokenizer`): the `StringTokenizer(query, "&")`
  scan and the split of a token at its first `=`. Each is proved against a
  reference definition: plain split-on-`&` keeping empty segments, and the
  `name=value` rejoin.
- `http_request.dfy` (`HttpRequest`): the store (`map<string, seq<string>>`), the
  parse loop, and the accessors.
- `request_properties.dfy` (`RequestProperties`): the parse stated against a
  declarative description of the query. That description is the decoded
  `Param` of every token, in order. It also holds the accessor guarantees on a
  parsed store, the lazy-insert invariant break, and three worked examples.

Modelling decisions:

- The percent-decoder `freenet.support.URLDecoder.decode` is not part of this
  model. It is a parameter `decode: string -> Option<string>` of the parse,
  where `None` stands for `URLEncodedFormatException`. No property is stated
  about what it decodes to.
- Both constructors parse with decoding switched on (HTTPRequest.java:47
  and :64). The parse is modelled for either setting of `doUrlDecoding`;
  the properties stated for decoding switched off (ParseWithoutDecoding,
  ParseSerialised, ExampleMixedTokens) describe the parse routine itself,
  not a path any constructed `HTTPRequest` takes.
- `java.net.URI` is not part of this model. The parse takes the raw query as
  `Option<string>`, with `None` for a `null` raw query.
- A failed decode is `Failure(DecodeFailed(name, value))`. Java throws a
  `RuntimeException`; the model keeps no message text. A failure carries no
  store, so a partly parsed store is never observable.
- `getParameterValue` calls `get(0)` on the stored list. When a name is set
  with an empty list, Java throws `IndexOutOfBoundsException`; the model
  returns `Failure(IndexOutOfBounds)`. This affects `getParam` and `getIntParam`.
- `getMultipleParam` and `getMultipleIntParam` go through
  `getParameterValueList`, which inserts an empty list for an unknown name. They
  therefore return the new store along with their result. A parse never leaves
  an empty list behind (`ParsedListsNonEmpty`). After one of these reads on an
  unset name, though, that name counts as set, and `getParam` and `getIntParam`
  on it throw (`LazyInsertBreaksGetParam`).
- The code is followed where its doc comments disagree with it:
  - `hasParameters` is documented as "true if the query string was totally
    empty" (HTTPRequest.java:78). The code returns `!isEmpty()`, which is what
    `HasParameters` models.
  - `getParam(name, default)` is documented to return the default for an empty
    value (HTTPRequest.java:216-224). The code returns the stored `""`, and
    `GetParamAfterParse` proves that.
- Empty `&`-segments (leading, trailing or doubled `&`) produce no parameter,
  as with `StringTokenizer`.

## Model

| member | source | states |
|---|---|---|
| JavaInteger.ParseInt | src/freenet/pluginmanager/HTTPRequest.java:264-269 | an accepted string is non-empty; after an optional leading `+`/`-` (which must be followed by something) it is all decimal digits; the result is the digits' value, negated after `-`, so a value outside the `int` range cannot be returned; all-digit input above 2147483647 is rejected |
| JavaInteger.ParseIntRejectsOutOfRange | src/freenet/pluginmanager/HTTPRequest.java:264-269 | digits whose value is above 2147483647 are rejected bare or after `+`, and above 2147483648 after `-`: a NumberFormatException |
| JavaInteger.ParseIntRejectsJustOutOfRange | src/freenet/pluginmanager/HTTPRequest.java:264-269 | the decimal spellings of 2147483648 (bare or after `+`) and of -2147483649 are rejected, while that of -2147483648 gives the minimum `int` |
| JavaInteger.ParseIntAcceptsSignedDigits | src/freenet/pluginmanager/HTTPRequest.java:264-269 | conversely, digits with an optional `+` or `-` are accepted with their signed value whenever it fits in an `int`, leading zeros included |
| JavaInteger.ParseIntRoundTrip | src/freenet/pluginmanager/HTTPRequest.java:266 | every `int` written in decimal parses back to itself |
| JavaInteger.NatDigitsValue | src/freenet/pluginmanager/HTTPRequest.java:266 | the digits of a natural number evaluate back to that number |
| QueryTokenizer.SegmentsShape | src/freenet/pluginmanager/HTTPRequest.java:102 | reference split on `&`: one more segment than there are separators, none containing `&` |
| QueryTokenizer.Tokens | src/freenet/pluginmanager/HTTPRequest.java:102-104 | every token the tokenizer hands out is non-empty and contains no `&` |
| QueryTokenizer.TokensAreNonEmptySegments | src/freenet/pluginmanager/HTTPRequest.java:102-104 | the tokens are exactly the non-empty `&`-segments in order, so empty segments are skipped |
| QueryTokenizer.JoinSegments | src/freenet/pluginmanager/HTTPRequest.java:102 | joining the segments with `&` gives back the query string |
| QueryTokenizer.SegmentsJoin | src/freenet/pluginmanager/HTTPRequest.java:102 | separator-free segments joined with `&` split back into the same segments |
| QueryTokenizer.SegmentsAfterSegment | src/freenet/pluginmanager/HTTPRequest.java:102 | a separator-free piece followed by `&` becomes a segment of its own, in front of the segments of the rest |
| QueryTokenizer.TokensJoin | src/freenet/pluginmanager/HTTPRequest.java:102-104 | non-empty separator-free tokens joined with `&` tokenise back into themselves |
| QueryTokenizer.IndexOf | src/freenet/pluginmanager/HTTPRequest.java:109 | the result is -1 iff the character is absent; otherwise it is a position holding the character, with no earlier occurrence |
| QueryTokenizer.SplitToken | src/freenet/pluginmanager/HTTPRequest.java:106-121 | the name never contains `=`; with no `=` the token is the name and the value is empty; otherwise the token is name, `=`, value (an empty value for a trailing `=`, and the value may contain `=`) |
| QueryTokenizer.SplitTokenJoin | src/freenet/pluginmanager/HTTPRequest.java:117-121 | `name=value` with an `=`-free name splits back into that name and value |
| HttpRequest.ParameterValueList | src/freenet/pluginmanager/HTTPRequest.java:173-180 | returns the stored list or an empty one; the name becomes a key; no other key is added or changed |
| HttpRequest.AddValue | src/freenet/pluginmanager/HTTPRequest.java:130-134 | appends the value at the end of the name's list, creating it on first occurrence; other names untouched |
| HttpRequest.DecodeParam | src/freenet/pluginmanager/HTTPRequest.java:123-139 | with decoding on, it succeeds iff both name and value decode, yielding both decoded; with decoding off the raw pair passes through |
| HttpRequest.ParseTokens | src/freenet/pluginmanager/HTTPRequest.java:101-141 | a successful parse loop never removes a key already in the store |
| HttpRequest.Parse | src/freenet/pluginmanager/HTTPRequest.java:94-99 | an absent or empty query string yields the empty store |
| HttpRequest.IsParameterSet | src/freenet/pluginmanager/HTTPRequest.java:191-193 | a name is set exactly when reading its value list leaves the store unchanged (no lazy insert); an unset name has no values |
| HttpRequest.HasParameters | src/freenet/pluginmanager/HTTPRequest.java:80-82 | without parameters no name is set and no name has a value (the converse is HasParametersIffSomeSet) |
| HttpRequest.ParameterValue | src/freenet/pluginmanager/HTTPRequest.java:152-158 | null iff the name is unset; the first value when it is set; a fault iff it is set with an empty list |
| HttpRequest.GetParamOr | src/freenet/pluginmanager/HTTPRequest.java:226-232 | the default iff the name is unset; the first stored value, even `""`, when set; fails only on an empty list |
| HttpRequest.GetParam | src/freenet/pluginmanager/HTTPRequest.java:211-213 | `""` for an unset name; the first stored value when the list is non-empty; the `get(0)` fault iff the name is set with an empty list |
| HttpRequest.GetIntParamOr | src/freenet/pluginmanager/HTTPRequest.java:260-270 | the default when unset or when the first value is not an int; the parsed first value otherwise; fails only on an empty list |
| HttpRequest.GetIntParam | src/freenet/pluginmanager/HTTPRequest.java:244-246 | 0 when unset or when the first value is not an int; the parsed first value when it is one; the `get(0)` fault iff the name is set with an empty list |
| HttpRequest.IntsOf | src/freenet/pluginmanager/HTTPRequest.java:305-309 | one value contributes at most one int: the parsed value, or none when `Integer` construction throws (which one is fixed by ParsedIntsMembership on a one-element list) |
| HttpRequest.ParsedInts | src/freenet/pluginmanager/HTTPRequest.java:303-310 | the try/catch filter over the values: no int comes out exactly when no value parses; order, contents and loss are characterised by ParsedIntsAppend, ParsedIntsMembership and ParsedIntsKeepsAll |
| HttpRequest.GetMultipleParam | src/freenet/pluginmanager/HTTPRequest.java:283-288 | all stored values in order, empty if unset; afterwards the name is set, its stored list is what was returned (an inserted empty list if it was unset), `hasParameters` holds, and no other key changes |
| HttpRequest.GetMultipleIntParam | src/freenet/pluginmanager/HTTPRequest.java:299-318 | the stored values that parse as ints, in order; the same lazy insert as `getMultipleParam`: the name's stored list is afterwards the list read, empty if it was unset |
| RequestProperties.DecodedParamsAt | src/freenet/pluginmanager/HTTPRequest.java:106-128 | the i-th decoded parameter is the decoding of the split of the i-th token |
| RequestProperties.ValuesOf | src/freenet/pluginmanager/HTTPRequest.java:130-134 | the values of a name are empty iff the name never occurs |
| RequestProperties.ParseTokensSucceeds | src/freenet/pluginmanager/HTTPRequest.java:124-140 | the parse loop succeeds iff every token's name and value decode |
| RequestProperties.ParseTokensKeys | src/freenet/pluginmanager/HTTPRequest.java:130-134 | after the loop, the keys are the earlier keys plus every decoded name |
| RequestProperties.ParseTokensValues | src/freenet/pluginmanager/HTTPRequest.java:130-134 | after the loop, each name holds its earlier values followed by its decoded values in query order |
| RequestProperties.ParseIsTokenFold | src/freenet/pluginmanager/HTTPRequest.java:96-104 | the early return for a null or empty query agrees with running the loop over no tokens |
| RequestProperties.ParseCharacterisation | src/freenet/pluginmanager/HTTPRequest.java:94-142 | the parse succeeds iff every token decodes; the key set is then the set of decoded names, and each name holds its decoded values in query order, accumulating repeats |
| RequestProperties.ParseFailsOnUndecodableToken | src/freenet/pluginmanager/HTTPRequest.java:124-140 | any one token whose name or value fails to decode makes the whole parse fail |
| RequestProperties.ParseEmptyQuery | src/freenet/pluginmanager/HTTPRequest.java:96-99 | a null or empty query gives an empty store: `hasParameters` is false and no name is set |
| RequestProperties.ParseWithoutDecoding | src/freenet/pluginmanager/HTTPRequest.java:106-128 | with decoding off the parse cannot fail, and each stored pair is exactly the token's name and value substrings |
| RequestProperties.ParseSerialised | src/freenet/pluginmanager/HTTPRequest.java:101-128 | parameters with `&`-free names and values and `=`-free names, written as `name=value` joined by `&` and parsed without decoding, come back as the same parameters in the same order; the store's keys are their names and each list their values |
| RequestProperties.ParsedListsNonEmpty | src/freenet/pluginmanager/HTTPRequest.java:130-134 | straight after a parse, no stored list is empty |
| RequestProperties.ParseTokensCount | src/freenet/pluginmanager/HTTPRequest.java:103-134 | each successfully parsed token adds exactly one value to the store |
| RequestProperties.ParseCountsValues | src/freenet/pluginmanager/HTTPRequest.java:102-134 | a successful parse stores exactly as many values as there are non-empty `&`-segments |
| RequestProperties.GetParamAfterParse | src/freenet/pluginmanager/HTTPRequest.java:226-232 | on a parsed store, `getParam(n, d)` is the first decoded value given to `n` (even `""`), or `d` when `n` never occurs; it never fails |
| RequestProperties.GetIntParamAfterParse | src/freenet/pluginmanager/HTTPRequest.java:260-270 | on a parsed store, `getIntParam(n, d)` is the parsed first value of `n`, or `d` when `n` never occurs or that value is not an int |
| RequestProperties.GetMultipleParamAfterParse | src/freenet/pluginmanager/HTTPRequest.java:283-318 | on a parsed store, the multi-value getters return all decoded values of the name in query order, and the int subset of them |
| RequestProperties.ParsedIntsAppend | src/freenet/pluginmanager/HTTPRequest.java:304-310 | the int filter distributes over concatenation, so it keeps order |
| RequestProperties.ParsedIntsMembership | src/freenet/pluginmanager/HTTPRequest.java:304-310 | an int is in the result iff some value parses to it |
| RequestProperties.ParsedIntsKeepsAll | src/freenet/pluginmanager/HTTPRequest.java:304-310 | nothing is dropped iff every value parses |
| RequestProperties.HasParametersIffSomeSet | src/freenet/pluginmanager/HTTPRequest.java:80-82 | `hasParameters` holds iff some name is set |
| RequestProperties.LazyInsertBreaksGetParam | src/freenet/pluginmanager/HTTPRequest.java:173-179 | `getMultipleParam` or `getMultipleIntParam` on an unset name makes it set with an empty list (both leave the same store), so `getParam` and `getIntParam`, with or without a default, then throw |
| RequestProperties.MultipleParamOnSetNameKeepsStore | src/freenet/pluginmanager/HTTPRequest.java:173-179 | the multi-value getters leave the store unchanged for a name that is already set |
| RequestProperties.ExampleMixedTokens | src/freenet/pluginmanager/HTTPRequest.java:106-134 | `a=1&b=&c&a=2` without decoding gives `a` the list `1`,`2`, and gives `b` and `c` one empty value each |
| RequestProperties.ExampleMultipleInts | src/freenet/pluginmanager/HTTPRequest.java:304-310 | `3`, `bad`, `5` give the ints 3 and 5 |
| RequestProperties.ExampleDecodeFailure | src/freenet/pluginmanager/HTTPRequest.java:124-140 | `x=%41%42&y=%ZZ` fails as a whole when `%ZZ` does not decode |

## Left out

- `java.net.URI` handling: the two constructors, `getRawQuery`, `getPath` and `URISyntaxException` (HTTPRequest.java:45-73). The parse takes the already extracted raw query.
- The decoding done by `freenet.support.URLDecoder.decode`: it is a parameter of the parse, and nothing is assumed about its results.
- The exception message and the `RuntimeException` wrapping of a decode failure. Only the error result is modelled, with the name (already decoded when only the value failed) and the raw value.
- JavaInteger.ParseInt: accepts ASCII digits only. `Character.digit` also accepts other Unicode decimal digits. Java releases before 7 rejected a leading `+`; this model accepts it, as current Java does.
- Strings are sequences of Unicode scalar values, whereas a Java `String` is a sequence of UTF-16 code units. Splitting at the ASCII characters `&` and `=` gives the same pieces either way, but a raw query or decoder output holding an unpaired surrogate cannot be represented.
- RequestProperties.ParseSerialised: the store round trip is stated for parameters that need no escaping and for a parse without decoding; with decoding it would need a percent-encoder inverse to the decoder, which is kept abstract.
- Concurrency and safe publication of the `HashMap`, and the `HashMap`/`LinkedList`/array representations. These are replaced by an immutable map and sequences.
- `getMultipleParam` / `getMultipleIntParam` return sequences rather than freshly allocated arrays. Array identity is not modelled.

=== FILE: http_request.dfy ===
/** The parameter store of freenet.pluginmanager.HTTPRequest: parsing a raw
    query string into a map from parameter name to the ordered list of its
    values, and the accessors plugins use to read it. */
module HttpRequest {
  import opened Wrappers
  import opened JavaInteger
  import opened QueryTokenizer

  /** parameterNameValuesMap: name to the values in query order. */
  type Store = map<string, seq<string>>

  /** The percent-decoder (freenet.support.URLDecoder.decode), kept abstract:
      None stands for a URLEncodedFormatException. */
  type Decoder = string -> Option<string>

  /** The RuntimeException thrown when a name or value cannot be decoded;
      carries the name as far as it was decoded and the raw value. */
  datatype ParseError = DecodeFailed(name: string, value: string)

  /** A Java exception escaping an accessor: List.get(0) on an empty list. */
  datatype Fault = IndexOutOfBounds

  /** The values stored so far for `name`; empty when it has none. */
  function Lookup(s: Store, name: string): seq<string> {
    if name in s then s[name] else []
  }

  /** getParameterValueList: the stored list for `name`, after inserting an
      empty one when the name was absent. */
  function ParameterValueList(s: Store, name: string): (r: (seq<string>, Store))
    ensures r.1.Keys == s.Keys + {name}
    ensures r.0 == r.1[name] == Lookup(s, name)
    ensures forall k :: k in s ==> r.1[k] == s[k]
  {
    if name in s then (s[name], s) else ([], s[name := []])
  }

  /** One step of the parse: append `value` to the list of `name`. */
  function AddValue(s: Store, name: string, value: string): (s': Store)
    ensures s'.Keys == s.Keys + {name}
    ensures s'[name] == Lookup(s, name) + [value]
    ensures forall k :: k in s && k != name ==> s'[k] == s[k]
  {
    var (values, s1) := ParameterValueList(s, name);
    s1[name := values + [value]]
  }

  /** Decodes name then value of one token, unless decoding is switched off. */
  function DecodeParam(raw: Param, doUrlDecoding: bool, decode: Decoder): (r: Result<Param, ParseError>)
    ensures !doUrlDecoding ==> r == Success(raw)
    ensures doUrlDecoding ==>
      (r.Success? <==> decode(raw.name).Some? && decode(raw.value).Some?)
    ensures r.Success? && doUrlDecoding ==>
      r.value == Param(decode(raw.name).value, decode(raw.value).value)
  {
    if !doUrlDecoding then Success(raw)
    else match decode(raw.name)
      case None => Failure(DecodeFailed(raw.name, raw.value))
      case Some(name) =>
        match decode(raw.value)
        case None => Failure(DecodeFailed(name, raw.value))
        case Some(value) => Success(Param(name, value))
  }

  /** The tokenizer loop of parseRequestParameters, continuing from store `s`;
      the first token that fails to decode aborts the whole parse. */
  function ParseTokens(tokens: seq<string>, s: Store, doUrlDecoding: bool, decode: Decoder): (r: Result<Store, ParseError>)
    ensures r.Success? ==> s.Keys <= r.value.Keys
    decreases |tokens|
  {
    if tokens == [] then Success(s)
    else
      match DecodeParam(SplitToken(tokens[0]), doUrlDecoding, decode)
      case Failure(e) => Failure(e)
      case Success(p) => ParseTokens(tokens[1..], AddValue(s, p.name, p.value), doUrlDecoding, decode)
  }

  /** parseRequestParameters on an empty store: an absent or empty query
      string leaves the store empty. */
  function Parse(query: Option<string>, doUrlDecoding: bool, decode: Decoder): (r: Result<Store, ParseError>)
    ensures query.None? || query.value == [] ==> r == Success(map[])
  {
    if query.None? || |query.value| == 0 then Success(map[])
    else ParseTokens(Tokens(query.value), map[], doUrlDecoding, decode)
  }

  /** isParameterSet: a set name is exactly one whose value list can be
      read without the lazy insert changing the store; an unset name has no
      values. */
  function IsParameterSet(s: Store, name: string): (r: bool)
    ensures r <==> ParameterValueList(s, name).1 == s
    ensures !r ==> Lookup(s, name) == []
  {
    name in s
  }

  /** hasParameters: whether any name is stored. Without parameters no name
      is set and none has a value. */
  function HasParameters(s: Store): (r: bool)
    ensures !r ==> forall name :: !IsParameterSet(s, name) && Lookup(s, name) == []
  {
    s != map[]
  }

  /** getParameterValue: the first value, None (null) when the name is not
      set, and a fault when it is set with an empty list. */
  function ParameterValue(s: Store, name: string): (r: Result<Option<string>, Fault>)
    ensures r.Failure? <==> name in s && s[name] == []
    ensures r == Success(None) <==> name !in s
    ensures r.Success? && r.value.Some? ==> r.value.value == s[name][0]
  {
    if !IsParameterSet(s, name) then Success(None)
    else
      var (values, _) := ParameterValueList(s, name);
      if values == [] then Failure(IndexOutOfBounds) else Success(Some(values[0]))
  }

  /** getParam(name, defaultValue): the first value when the name is set,
      even an empty one; `defaultValue` otherwise. */
  function GetParamOr(s: Store, name: string, defaultValue: string): (r: Result<string, Fault>)
    ensures name !in s ==> r == Success(defaultValue)
    ensures name in s && s[name] != [] ==> r == Success(s[name][0])
    ensures r.Failure? <==> name in s && s[name] == []
  {
    match ParameterValue(s, name)
    case Failure(f) => Failure(f)
    case Success(None) => Success(defaultValue)
    case Success(Some(v)) => Success(v)
  }

  /** getParam(name): the default is the empty string. */
  function GetParam(s: Store, name: string): (r: Result<string, Fault>)
    ensures name !in s ==> r == Success("")
    ensures name in s && s[name] != [] ==> r == Success(s[name][0])
    ensures r.Failure? <==> name in s && s[name] == []
  {
    GetParamOr(s, name, "")
  }

  /** getIntParam(name, defaultValue): the first value as an int when the name
      is set and that value parses; `defaultValue` otherwise. */
  function GetIntParamOr(s: Store, name: string, defaultValue: Int32): (r: Result<Int32, Fault>)
    ensures name !in s ==> r == Success(defaultValue)
    ensures name in s && s[name] != [] ==>
      r == Success(if ParseInt(s[name][0]).Some? then ParseInt(s[name][0]).value else defaultValue)
    ensures r.Failure? <==> name in s && s[name] == []
  {
    if !IsParameterSet(s, name) then Success(defaultValue)
    else
      match ParameterValue(s, name)
      case Failure(f) => Failure(f)
      // Integer.parseInt(null) throws NumberFormatException, which is caught
      case Success(None) => Success(defaultValue)
      case Success(Some(v)) =>
        match ParseInt(v)
        case Some(x) => Success(x)
        case None => Success(defaultValue)
  }

  /** getIntParam(name): the default is 0. */
  function GetIntParam(s: Store, name: string): (r: Result<Int32, Fault>)
    ensures name !in s ==> r == Success(0)
    ensures name in s && s[name] != [] && ParseInt(s[name][0]) == None ==> r == Success(0)
    ensures name in s && s[name] != [] && ParseInt(s[name][0]).Some? ==> r == Success(ParseInt(s[name][0]).value)
    ensures r.Failure? <==> name in s && s[name] == []
  {
    GetIntParamOr(s, name, 0)
  }

  /** The int a single value contributes: none when it does not parse. */
  function IntsOf(value: string): (r: seq<Int32>)
    ensures |r| <= 1
  {
    match ParseInt(value)
    case Some(x) => [x]
    case None => []
  }

  /** The values that parse as ints, in order; the others are dropped. No
      int comes out exactly when no value parses. */
  function ParsedInts(values: seq<string>): (r: seq<Int32>)
    ensures r == [] <==> forall i :: 0 <= i < |values| ==> ParseInt(values[i]).None?
    decreases |values|
  {
    if values == [] then []
    else
      assert forall i :: 0 < i < |values| ==> values[i] == values[1..][i - 1];
      IntsOf(values[0]) + ParsedInts(values[1..])
  }

  /** getMultipleParam: all values of `name` in stored order, paired with the
      store after the lazy insert of getParameterValueList. */
  function GetMultipleParam(s: Store, name: string): (r: (seq<string>, Store))
    ensures r.0 == Lookup(s, name)
    ensures r.1.Keys == s.Keys + {name}
    ensures r.1[name] == Lookup(s, name)
    ensures IsParameterSet(r.1, name) && HasParameters(r.1)
    ensures forall k :: k in s ==> r.1[k] == s[k]
  {
    ParameterValueList(s, name)
  }

  /** getMultipleIntParam: the values of `name` that parse as ints, in
      stored order, paired with the store after the lazy insert. */
  function GetMultipleIntParam(s: Store, name: string): (r: (seq<Int32>, Store))
    ensures r.0 == ParsedInts(Lookup(s, name))
    ensures r.1.Keys == s.Keys + {name}
    ensures r.1[name] == Lookup(s, name)
    ensures IsParameterSet(r.1, name) && HasParameters(r.1)
    ensures forall k :: k in s ==> r.1[k] == s[k]
  {
    var (values, s') := ParameterValueList(s, name);
    (ParsedInts(values), s')
  }
}

=== FILE: java_integer.dfy ===
/** The decimal integer syntax accepted by java.lang.Integer.parseInt(String)
    and by the constructor java.lang.Integer(String), which delegates to it. */
module JavaInteger {
  import opened Wrappers

  const MinValue: int := -0x8000_0000
  const MaxValue: int := 0x7fff_ffff

  /** A Java `int`. */
  type Int32 = x: int | MinValue <= x <= MaxValue

  predicate IsDigit(c: char) {
    '0' <= c <= '9'
  }

  predicate AllDigits(s: string) {
    forall i :: 0 <= i < |s| ==> IsDigit(s[i])
  }

  function DigitValue(c: char): nat
    requires IsDigit(c)
  {
    c as int - '0' as int
  }

  function DigitChar(d: nat): (c: char)
    requires d < 10
    ensures IsDigit(c) && DigitValue(c) == d
  {
    ('0' as int + d) as char
  }

  /** The value of a run of decimal digits, most significant digit first. */
  function DigitsValue(s: string): nat
    requires AllDigits(s)
    decreases |s|
  {
    if s == [] then 0 else DigitsValue(s[..|s| - 1]) * 10 + DigitValue(s[|s| - 1])
  }

  /** Integer.parseInt(s, 10): an optional sign '-' or '+', then one or more
      digits, whose value must fit in an `int`; anything else is a
      NumberFormatException, modelled as None. */
  function ParseInt(s: string): (r: Option<Int32>)
    ensures r.Some? ==> |s| > 0
    ensures r.Some? ==> forall i :: 0 < i < |s| ==> IsDigit(s[i])
    ensures r.Some? && !IsDigit(s[0]) ==> |s| >= 2 && (s[0] == '-' || s[0] == '+')
    ensures r.Some? && s[0] != '-' ==> r.value >= 0
    ensures s != [] && AllDigits(s) && DigitsValue(s) > MaxValue ==> r == None
    ensures r.Some? && IsDigit(s[0]) ==> r.value == DigitsValue(s)
    ensures r.Some? && s[0] == '+' ==> r.value == DigitsValue(s[1..])
    ensures r.Some? && s[0] == '-' ==> r.value == 0 - DigitsValue(s[1..]) as int
  {
    if s == [] then None
    else
      var negative := s[0] == '-';
      var digits := if s[0] == '-' || s[0] == '+' then s[1..] else s;
      if digits == [] || !AllDigits(digits) then None
      else
        var magnitude: int := DigitsValue(digits);
        var v: int := if negative then -magnitude else magnitude;
        if MinValue <= v <= MaxValue then Some(v) else None
  }

  /** Decimal digits of a natural number without leading zeros. */
  function NatDigits(n: nat): (r: string)
    ensures r != [] && AllDigits(r)
    decreases n
  {
    if n < 10 then [DigitChar(n)] else NatDigits(n / 10) + [DigitChar(n % 10)]
  }

  /** The canonical decimal form of x; ParseInt reads it back
      (ParseIntRoundTrip). */
  function ToDecimal(x: int): (r: string)
    ensures r != []
  {
    if x < 0 then "-" + NatDigits(-x) else NatDigits(x)
  }

  lemma {:induction false} NatDigitsValue(n: nat)
    ensures DigitsValue(NatDigits(n)) == n
    decreases n
  {
    if n >= 10 {
      var s := NatDigits(n);
      NatDigitsValue(n / 10);
      assert s[..|s| - 1] == NatDigits(n / 10);
    }
  }

  /** Every `int` survives printing and parsing back. */
  lemma ParseIntRoundTrip(x: Int32)
    ensures ParseInt(ToDecimal(x)) == Some(x)
  {
    var s := ToDecimal(x);
    if x < 0 {
      var m: nat := -(x as int);
      var d := NatDigits(m);
      assert s == "-" + d && s[0] == '-' && s[1..] == d;
      NatDigitsValue(m);
    } else {
      var d := NatDigits(x);
      assert s == d && IsDigit(s[0]);
      NatDigitsValue(x);
    }
  }

  /** ParseInt of a sign followed by digits, in terms of the digits alone. */
  lemma ParseIntAfterSign(sign: char, digits: string)
    requires sign == '+' || sign == '-'
    requires digits != [] && AllDigits(digits)
    ensures ParseInt([sign] + digits) ==
      var v: int := if sign == '-' then 0 - DigitsValue(digits) as int else DigitsValue(digits);
      if MinValue <= v <= MaxValue then Some(v) else None
  {
    var t := [sign] + digits;
    assert t[0] == sign && t[1..] == digits;
  }

  /** Conversely, an optional sign followed by digits whose value is in
      range is accepted, leading zeros included. */
  lemma ParseIntAcceptsSignedDigits(digits: string)
    requires digits != [] && AllDigits(digits)
    ensures DigitsValue(digits) <= MaxValue ==>
      ParseInt(digits) == Some(DigitsValue(digits)) && ParseInt("+" + digits) == Some(DigitsValue(digits))
    ensures DigitsValue(digits) <= -MinValue ==> ParseInt("-" + digits) == Some(0 - DigitsValue(digits) as int)
  {
    assert IsDigit(digits[0]);
    ParseIntAfterSign('+', digits);
    ParseIntAfterSign('-', digits);
  }

  /** A signed value outside the `int` range is a NumberFormatException,
      whatever the sign and however many leading zeros. */
  lemma ParseIntRejectsOutOfRange(digits: string)
    requires digits != [] && AllDigits(digits)
    ensures DigitsValue(digits) > MaxValue ==> ParseInt(digits) == None && ParseInt("+" + digits) == None
    ensures DigitsValue(digits) > -MinValue ==> ParseInt("-" + digits) == None
  {
    ParseIntAfterSign('+', digits);
    ParseIntAfterSign('-', digits);
  }

  /** The boundary cases: the decimal spelling of one past either end of
      the range is rejected, with or without a `+`, and that of MinValue is
      accepted. */
  lemma ParseIntRejectsJustOutOfRange()
    ensures ParseInt(ToDecimal(MaxValue + 1)) == None
    ensures ParseInt("+" + ToDecimal(MaxValue + 1)) == None
    ensures ParseInt(ToDecimal(MinValue - 1)) == None
    ensures ParseInt(ToDecimal(MinValue)) == Some(MinValue)
  {
    var above := NatDigits(MaxValue + 1);
    var below := NatDigits(-(MinValue - 1));
    NatDigitsValue(MaxValue + 1);
    NatDigitsValue(-(MinValue - 1));
    ParseIntRejectsOutOfRange(above);
    ParseIntRejectsOutOfRange(below);
    ParseIntRoundTrip(MinValue);
  }
}

=== FILE: query_tokenizer.dfy ===
/** Tokenising a raw query string on '&' the way java.util.StringTokenizer
    does, and splitting one token into a parameter name and value. */
module QueryTokenizer {

  const Separator: char := '&'
  const EqualsSign: char := '='

  /** One occurrence of a parameter in the query string. */
  datatype Param = Param(name: string, value: string)

  /** Number of occurrences of `c` in `s`. */
  function Count(s: string, c: char): nat
    decreases |s|
  {
    if s == [] then 0 else (if s[0] == c then 1 else 0) + Count(s[1..], c)
  }

  /** Reference split on '&' that keeps empty segments: the pieces between
      consecutive separators, including before the first and after the last. */
  function Segments(s: string): (r: seq<string>)
    ensures |r| >= 1
    decreases |s|
  {
    if s == [] then [""]
    else if s[0] == Separator then [""] + Segments(s[1..])
    else
      var rest := Segments(s[1..]);
      [[s[0]] + rest[0]] + rest[1..]
  }

  /** Joins segments with '&' between neighbours. */
  function Join(segs: seq<string>): string
    decreases |segs|
  {
    if segs == [] then ""
    else if |segs| == 1 then segs[0]
    else segs[0] + [Separator] + Join(segs[1..])
  }

  /** The segments that are not empty, in order. */
  function NonEmpty(segs: seq<string>): (r: seq<string>)
    ensures forall x :: x in r <==> x in segs && x != ""
    decreases |segs|
  {
    if segs == [] then []
    else (if segs[0] == "" then [] else [segs[0]]) + NonEmpty(segs[1..])
  }

  /** The tokens StringTokenizer(s, "&") hands out: maximal runs of
      characters other than '&'. Scans left to right, `current` holding the
      token read so far. */
  function TokensFrom(rest: string, current: string): (r: seq<string>)
    requires Separator !in current
    ensures forall i :: 0 <= i < |r| ==> r[i] != "" && Separator !in r[i]
    decreases |rest|
  {
    if rest == [] then
      (if current == "" then [] else [current])
    else if rest[0] == Separator then
      (if current == "" then [] else [current]) + TokensFrom(rest[1..], "")
    else
      TokensFrom(rest[1..], current + [rest[0]])
  }

  function Tokens(s: string): (r: seq<string>)
    ensures forall i :: 0 <= i < |r| ==> r[i] != "" && Separator !in r[i]
  {
    TokensFrom(s, "")
  }

  /** String.indexOf(char): the first position of `c`, or -1. */
  function IndexOf(s: string, c: char): (r: int)
    ensures -1 <= r < |s|
    ensures r < 0 <==> c !in s
    ensures r >= 0 ==> s[r] == c && c !in s[..r]
    decreases |s|
  {
    if s == [] then -1
    else if s[0] == c then 0
    else
      var i := IndexOf(s[1..], c);
      if i < 0 then -1 else i + 1
  }

  /** Splits a token at its first '=': no '=' gives the whole token as name
      and an empty value; a final '=' gives the prefix and an empty value;
      otherwise the name is before and the value after the first '='. */
  function SplitToken(t: string): (p: Param)
    ensures EqualsSign !in p.name
    ensures EqualsSign !in t ==> p == Param(t, "")
    ensures EqualsSign in t ==> t == p.name + [EqualsSign] + p.value
  {
    var i := IndexOf(t, EqualsSign);
    if i < 0 then Param(t, "")
    else if i == |t| - 1 then Param(t[..i], "")
    else Param(t[..i], t[i + 1..])
  }

  // ---------------------------------------------------------------------
  // Properties

  lemma SegmentsCons(s: string)
    requires s != [] && s[0] != Separator
    ensures |Segments(s)| == |Segments(s[1..])|
    ensures Segments(s)[0] == [s[0]] + Segments(s[1..])[0]
    ensures Segments(s)[1..] == Segments(s[1..])[1..]
  {
  }

  /** There is one more segment than there are separators, and no segment
      contains a separator. */
  lemma {:induction false} SegmentsShape(s: string)
    ensures |Segments(s)| == Count(s, Separator) + 1
    ensures forall i :: 0 <= i < |Segments(s)| ==> Separator !in Segments(s)[i]
    decreases |s|
  {
    if s != [] {
      SegmentsShape(s[1..]);
      var rest := Segments(s[1..]);
      if s[0] == Separator {
        assert Segments(s) == [""] + rest;
      } else {
        SegmentsCons(s);
        var segs := Segments(s);
        forall i | 0 <= i < |segs|
          ensures Separator !in segs[i]
        {
          if i == 0 {
            assert segs[0] == [s[0]] + rest[0];
          } else {
            assert segs[i] == segs[1..][i - 1] == rest[i];
          }
        }
      }
    }
  }

  /** A separator-free prefix only extends the first segment. */
  lemma {:induction false} SegmentsAfterPrefix(p: string, t: string)
    requires Separator !in p
    ensures |Segments(p + t)| == |Segments(t)|
    ensures Segments(p + t)[0] == p + Segments(t)[0]
    ensures Segments(p + t)[1..] == Segments(t)[1..]
    decreases |p|
  {
    var segs := Segments(t);
    if p == [] {
      assert p + t == t;
    } else {
      var s := p + t;
      assert s[0] == p[0] && s[1..] == p[1..] + t;
      SegmentsCons(s);
      SegmentsAfterPrefix(p[1..], t);
      assert [p[0]] + (p[1..] + segs[0]) == p + segs[0];
    }
  }

  lemma SegmentsOfSeparatorFree(p: string)
    requires Separator !in p
    ensures Segments(p) == [p]
  {
    SegmentsAfterPrefix(p, "");
    assert p + "" == p;
    assert Segments("") == [""];
  }

  lemma SegmentsAfterSegment(p: string, t: string)
    requires Separator !in p
    ensures Segments(p + [Separator] + t) == [p] + Segments(t)
  {
    var u := [Separator] + t;
    assert p + [Separator] + t == p + u;
    SegmentsAfterPrefix(p, u);
    assert u[0] == Separator && u[1..] == t;
    assert Segments(u) == [""] + Segments(t);
    var segs := Segments(p + u);
    assert segs[0] == p;
    assert segs == [segs[0]] + segs[1..];
  }

  /** The scanner yields exactly the non-empty '&'-segments: empty segments
      from leading, trailing or doubled separators are skipped. */
  lemma {:induction false} TokensFromAreNonEmptySegments(rest: string, current: string)
    requires Separator !in current
    ensures TokensFrom(rest, current) == NonEmpty(Segments(current + rest))
    decreases |rest|
  {
    if rest == [] {
      assert current + rest == current;
      SegmentsOfSeparatorFree(current);
      assert NonEmpty([current]) == (if current == "" then [] else [current]) + NonEmpty([]);
    } else if rest[0] == Separator {
      assert current + rest == current + [Separator] + rest[1..];
      SegmentsAfterSegment(current, rest[1..]);
      var segs := Segments(current + rest);
      assert segs[1..] == Segments(rest[1..]);
      TokensFromAreNonEmptySegments(rest[1..], "");
      assert "" + rest[1..] == rest[1..];
    } else {
      assert current + rest == (current + [rest[0]]) + rest[1..];
      TokensFromAreNonEmptySegments(rest[1..], current + [rest[0]]);
    }
  }

  lemma TokensAreNonEmptySegments(s: string)
    ensures Tokens(s) == NonEmpty(Segments(s))
  {
    TokensFromAreNonEmptySegments(s, "");
    assert "" + s == s;
  }

  /** Splitting and re-joining gives back the query string. */
  lemma JoinCons(first: string, rest: seq<string>)
    requires rest != []
    ensures Join([first] + rest) == first + [Separator] + Join(rest)
  {
    assert ([first] + rest)[1..] == rest;
  }

  lemma {:induction false} JoinSegments(s: string)
    ensures Join(Segments(s)) == s
    decreases |s|
  {
    if s == [] {
      assert Segments(s) == [""];
    } else {
      JoinSegments(s[1..]);
      var rest := Segments(s[1..]);
      assert s == [s[0]] + s[1..];
      if s[0] == Separator {
        assert Segments(s) == [""] + rest;
        JoinCons("", rest);
        assert "" + [Separator] + Join(rest) == [Separator] + s[1..];
      } else {
        SegmentsCons(s);
        var segs := Segments(s);
        var head := [s[0]] + rest[0];
        assert segs == [head] + rest[1..];
        if |rest| == 1 {
          assert Join(rest) == rest[0];
          assert Join(segs) == head;
        } else {
          JoinCons(head, rest[1..]);
          JoinCons(rest[0], rest[1..]);
          assert rest == [rest[0]] + rest[1..];
          assert Join(segs) == head + [Separator] + Join(rest[1..]);
          assert s[1..] == rest[0] + [Separator] + Join(rest[1..]);
          assert head + [Separator] + Join(rest[1..]) == [s[0]] + (rest[0] + [Separator] + Join(rest[1..]));
        }
      }
    }
  }

  /** Re-joined separator-free segments split back into the same segments. */
  lemma {:induction false} SegmentsJoin(segs: seq<string>)
    requires |segs| >= 1
    requires forall i :: 0 <= i < |segs| ==> Separator !in segs[i]
    ensures Segments(Join(segs)) == segs
    decreases |segs|
  {
    if |segs| == 1 {
      SegmentsOfSeparatorFree(segs[0]);
    } else {
      SegmentsJoin(segs[1..]);
      assert Join(segs) == segs[0] + [Separator] + Join(segs[1..]);
      SegmentsAfterSegment(segs[0], Join(segs[1..]));
      assert segs == [segs[0]] + segs[1..];
    }
  }

  /** A name without '=' and any value, written `name=value`, split back. */
  lemma SplitTokenJoin(name: string, value: string)
    requires EqualsSign !in name
    ensures SplitToken(name + [EqualsSign] + value) == Param(name, value)
  {
    var t := name + [EqualsSign] + value;
    assert t[|name|] == EqualsSign;
    var p := SplitToken(t);
    var i := IndexOf(t, EqualsSign);
    assert t[..|name|] == name;
    assert t[i + 1..] == value;
  }

  lemma {:induction false} NonEmptyKeepsNonEmpty(segs: seq<string>)
    requires forall i :: 0 <= i < |segs| ==> segs[i] != ""
    ensures NonEmpty(segs) == segs
    decreases |segs|
  {
    if segs != [] {
      NonEmptyKeepsNonEmpty(segs[1..]);
      assert segs == [segs[0]] + segs[1..];
    }
  }

  /** Non-empty separator-free tokens joined with '&' tokenise back to
      themselves. */
  lemma TokensJoin(tokens: seq<string>)
    requires forall i :: 0 <= i < |tokens| ==> tokens[i] != "" && Separator !in tokens[i]
    ensures Tokens(Join(tokens)) == tokens
  {
    if tokens != [] {
      TokensAreNonEmptySegments(Join(tokens));
      SegmentsJoin(tokens);
      NonEmptyKeepsNonEmpty(tokens);
    }
  }
}

=== FILE: request_properties.dfy ===
/** What parsing a query string and reading the store promise, stated against
    a declarative description of the query: the decoded parameters of its
    tokens, in order. */
module RequestProperties {
  import opened Wrappers
  import opened JavaInteger
  import opened QueryTokenizer
  import opened HttpRequest

  // ---------------------------------------------------------------------
  // Reference description of a query

  /** The tokens the parser visits; none for an absent query. */
  function QueryTokens(query: Option<string>): seq<string> {
    if query.None? then [] else Tokens(query.value)
  }

  /** Every token's name and value decode. */
  predicate AllDecode(tokens: seq<string>, doUrlDecoding: bool, decode: Decoder) {
    forall i :: 0 <= i < |tokens| ==> DecodeParam(SplitToken(tokens[i]), doUrlDecoding, decode).Success?
  }

  /** The decoded parameter of every token, in query order. */
  function DecodedParams(tokens: seq<string>, doUrlDecoding: bool, decode: Decoder): (ps: seq<Param>)
    requires AllDecode(tokens, doUrlDecoding, decode)
    ensures |ps| == |tokens|
    decreases |tokens|
  {
    if tokens == [] then []
    else
      assert forall i :: 0 <= i < |tokens| - 1 ==> tokens[1..][i] == tokens[i + 1];
      [DecodeParam(SplitToken(tokens[0]), doUrlDecoding, decode).value]
      + DecodedParams(tokens[1..], doUrlDecoding, decode)
  }

  /** The names that occur among the parameters. */
  function NamesOf(ps: seq<Param>): set<string> {
    set i | 0 <= i < |ps| :: ps[i].name
  }

  /** The values given to `name`, in order of occurrence. */
  function ValuesOf(ps: seq<Param>, name: string): (vs: seq<string>)
    ensures vs == [] <==> name !in NamesOf(ps)
    ensures |vs| <= |ps|
    decreases |ps|
  {
    if ps == [] then []
    else
      assert NamesOf(ps) == {ps[0].name} + NamesOf(ps[1..]) by {
        assert forall i :: 0 < i < |ps| ==> ps[i] == ps[1..][i - 1];
      }
      (if ps[0].name == name then [ps[0].value] else []) + ValuesOf(ps[1..], name)
  }

  /** No stored name has an empty list, so getParam and getIntParam cannot
      reach `get(0)` on an empty list. */
  predicate NoEmptyLists(s: Store) {
    forall name :: name in s ==> s[name] != []
  }

  /** Total number of values held by the store. */
  ghost function TotalValues(s: Store): nat
    decreases |s|
  {
    if s == map[] then 0
    else
      var k :| k in s;
      assert (s - {k}).Keys == s.Keys - {k};
      |s[k]| + TotalValues(s - {k})
  }

  // ---------------------------------------------------------------------
  // Helpers

  lemma NamesOfCons(p: Param, ps: seq<Param>)
    ensures NamesOf([p] + ps) == {p.name} + NamesOf(ps)
  {
    var qs := [p] + ps;
    forall n | n in NamesOf(qs)
      ensures n in {p.name} + NamesOf(ps)
    {
      var i :| 0 <= i < |qs| && qs[i].name == n;
      if i > 0 {
        assert qs[i] == ps[i - 1];
      }
    }
    forall n | n in {p.name} + NamesOf(ps)
      ensures n in NamesOf(qs)
    {
      if n == p.name {
        assert qs[0].name == n;
      } else {
        var i :| 0 <= i < |ps| && ps[i].name == n;
        assert qs[i + 1] == ps[i];
      }
    }
  }

  lemma AllDecodeCons(tokens: seq<string>, doUrlDecoding: bool, decode: Decoder)
    requires tokens != []
    ensures AllDecode(tokens, doUrlDecoding, decode) <==>
      DecodeParam(SplitToken(tokens[0]), doUrlDecoding, decode).Success?
      && AllDecode(tokens[1..], doUrlDecoding, decode)
  {
    var rest := tokens[1..];
    assert forall i :: 0 <= i < |rest| ==> rest[i] == tokens[i + 1];
    if DecodeParam(SplitToken(tokens[0]), doUrlDecoding, decode).Success? && AllDecode(rest, doUrlDecoding, decode) {
      forall i | 0 <= i < |tokens|
        ensures DecodeParam(SplitToken(tokens[i]), doUrlDecoding, decode).Success?
      {
        if i > 0 { assert tokens[i] == rest[i - 1]; }
      }
    }
  }

  lemma {:induction false} TotalValuesRemove(s: Store, k: string)
    requires k in s
    ensures TotalValues(s) == |s[k]| + TotalValues(s - {k})
    decreases |s|
  {
    var j :| j in s && TotalValues(s) == |s[j]| + TotalValues(s - {j});
    if j != k {
      assert (s - {j}).Keys == s.Keys - {j};
      assert (s - {k}).Keys == s.Keys - {k};
      TotalValuesRemove(s - {j}, k);
      TotalValuesRemove(s - {k}, j);
      assert s - {j} - {k} == s - {k} - {j};
    }
  }

  lemma TotalValuesAdd(s: Store, name: string, value: string)
    ensures TotalValues(AddValue(s, name, value)) == TotalValues(s) + 1
  {
    var s' := AddValue(s, name, value);
    TotalValuesRemove(s', name);
    if name in s {
      TotalValuesRemove(s, name);
      assert s' - {name} == s - {name};
    } else {
      assert s' - {name} == s;
    }
  }

  // ---------------------------------------------------------------------
  // Parsing

  /** The loop of parseRequestParameters succeeds exactly when every token
      decodes. */
  lemma {:induction false} ParseTokensSucceeds(tokens: seq<string>, s: Store, doUrlDecoding: bool, decode: Decoder)
    ensures ParseTokens(tokens, s, doUrlDecoding, decode).Success? <==> AllDecode(tokens, doUrlDecoding, decode)
    decreases |tokens|
  {
    if tokens != [] {
      AllDecodeCons(tokens, doUrlDecoding, decode);
      match DecodeParam(SplitToken(tokens[0]), doUrlDecoding, decode)
      case Failure(_) =>
      case Success(p) =>
        ParseTokensSucceeds(tokens[1..], AddValue(s, p.name, p.value), doUrlDecoding, decode);
    }
  }

  lemma ConcatAssoc<T>(a: seq<T>, b: seq<T>, c: seq<T>)
    ensures (a + b) + c == a + (b + c)
  {
  }

  lemma LookupAddValue(s: Store, n: string, v: string, name: string)
    ensures Lookup(AddValue(s, n, v), name) == Lookup(s, name) + (if name == n then [v] else [])
  {
  }

  lemma ValuesOfCons(p: Param, ps: seq<Param>, name: string)
    ensures ValuesOf([p] + ps, name) == (if p.name == name then [p.value] else []) + ValuesOf(ps, name)
  {
    assert ([p] + ps)[1..] == ps;
  }

  lemma DecodedParamsCons(tokens: seq<string>, doUrlDecoding: bool, decode: Decoder)
    requires tokens != []
    requires AllDecode(tokens, doUrlDecoding, decode)
    ensures AllDecode(tokens[1..], doUrlDecoding, decode)
    ensures DecodedParams(tokens, doUrlDecoding, decode)
      == [DecodeParam(SplitToken(tokens[0]), doUrlDecoding, decode).value]
         + DecodedParams(tokens[1..], doUrlDecoding, decode)
  {
    AllDecodeCons(tokens, doUrlDecoding, decode);
  }

  /** The i-th decoded parameter is the decoding of the i-th token. */
  lemma {:induction false} DecodedParamsAt(tokens: seq<string>, doUrlDecoding: bool, decode: Decoder, i: nat)
    requires AllDecode(tokens, doUrlDecoding, decode)
    requires i < |tokens|
    ensures Success(DecodedParams(tokens, doUrlDecoding, decode)[i])
      == DecodeParam(SplitToken(tokens[i]), doUrlDecoding, decode)
    decreases i
  {
    DecodedParamsCons(tokens, doUrlDecoding, decode);
    if i > 0 {
      DecodedParamsAt(tokens[1..], doUrlDecoding, decode, i - 1);
      assert tokens[1..][i - 1] == tokens[i];
    }
  }

  /** One loop iteration: a decodable first token is added, then the rest
      of the tokens are parsed. */
  lemma ParseTokensStep(tokens: seq<string>, s: Store, doUrlDecoding: bool, decode: Decoder)
    requires tokens != []
    requires DecodeParam(SplitToken(tokens[0]), doUrlDecoding, decode).Success?
    ensures var p := DecodeParam(SplitToken(tokens[0]), doUrlDecoding, decode).value;
      ParseTokens(tokens, s, doUrlDecoding, decode)
        == ParseTokens(tokens[1..], AddValue(s, p.name, p.value), doUrlDecoding, decode)
  {
  }

  /** When it succeeds, the loop adds each decoded name to the keys. */
  lemma {:induction false} ParseTokensKeys(tokens: seq<string>, s: Store, doUrlDecoding: bool, decode: Decoder)
    requires AllDecode(tokens, doUrlDecoding, decode)
    ensures ParseTokens(tokens, s, doUrlDecoding, decode).Success?
    ensures ParseTokens(tokens, s, doUrlDecoding, decode).value.Keys
      == s.Keys + NamesOf(DecodedParams(tokens, doUrlDecoding, decode))
    decreases |tokens|
  {
    ParseTokensSucceeds(tokens, s, doUrlDecoding, decode);
    if tokens == [] {
      assert DecodedParams(tokens, doUrlDecoding, decode) == [];
    } else {
      DecodedParamsCons(tokens, doUrlDecoding, decode);
      var p := DecodeParam(SplitToken(tokens[0]), doUrlDecoding, decode).value;
      ParseTokensKeys(tokens[1..], AddValue(s, p.name, p.value), doUrlDecoding, decode);
      ParseTokensStep(tokens, s, doUrlDecoding, decode);
      NamesOfCons(p, DecodedParams(tokens[1..], doUrlDecoding, decode));
    }
  }

  /** When it succeeds, the loop appends the values of each name, in query
      order, after those already stored. */
  lemma {:induction false} ParseTokensValues(tokens: seq<string>, s: Store, doUrlDecoding: bool, decode: Decoder, name: string)
    requires AllDecode(tokens, doUrlDecoding, decode)
    ensures ParseTokens(tokens, s, doUrlDecoding, decode).Success?
    ensures Lookup(ParseTokens(tokens, s, doUrlDecoding, decode).value, name)
      == Lookup(s, name) + ValuesOf(DecodedParams(tokens, doUrlDecoding, decode), name)
    decreases |tokens|
  {
    ParseTokensSucceeds(tokens, s, doUrlDecoding, decode);
    if tokens == [] {
      assert DecodedParams(tokens, doUrlDecoding, decode) == [];
    } else {
      DecodedParamsCons(tokens, doUrlDecoding, decode);
      var p := DecodeParam(SplitToken(tokens[0]), doUrlDecoding, decode).value;
      var s1 := AddValue(s, p.name, p.value);
      ParseTokensValues(tokens[1..], s1, doUrlDecoding, decode, name);
      ParseTokensStep(tokens, s, doUrlDecoding, decode);
      LookupAddValue(s, p.name, p.value, name);
      var psRest := DecodedParams(tokens[1..], doUrlDecoding, decode);
      var here: seq<string> := if p.name == name then [p.value] else [];
      ValuesOfCons(p, psRest, name);
      var r := ParseTokens(tokens[1..], s1, doUrlDecoding, decode).value;
      assert ParseTokens(tokens, s, doUrlDecoding, decode).value == r;
      assert DecodedParams(tokens, doUrlDecoding, decode) == [p] + psRest;
      ConcatAssoc(Lookup(s, name), here, ValuesOf(psRest, name));
    }
  }

  lemma ParseIsTokenFold(query: Option<string>, doUrlDecoding: bool, decode: Decoder)
    ensures Parse(query, doUrlDecoding, decode) == ParseTokens(QueryTokens(query), map[], doUrlDecoding, decode)
  {
    if query.Some? && query.value == [] {
      assert Tokens(query.value) == [];
    }
  }

  /** The parse succeeds exactly when every token decodes. The keys are then
      the decoded names, and each name holds the decoded values of its
      occurrences in query order: repeated names accumulate. */
  lemma ParseCharacterisation(query: Option<string>, doUrlDecoding: bool, decode: Decoder)
    ensures Parse(query, doUrlDecoding, decode).Success? <==> AllDecode(QueryTokens(query), doUrlDecoding, decode)
    ensures Parse(query, doUrlDecoding, decode).Success? ==>
      var s := Parse(query, doUrlDecoding, decode).value;
      var ps := DecodedParams(QueryTokens(query), doUrlDecoding, decode);
      && s.Keys == NamesOf(ps)
      && forall name :: Lookup(s, name) == ValuesOf(ps, name)
  {
    ParseIsTokenFold(query, doUrlDecoding, decode);
    ParseTokensSucceeds(QueryTokens(query), map[], doUrlDecoding, decode);
    if AllDecode(QueryTokens(query), doUrlDecoding, decode) {
      ParseTokensKeys(QueryTokens(query), map[], doUrlDecoding, decode);
      forall name
        ensures Lookup(Parse(query, doUrlDecoding, decode).value, name)
          == ValuesOf(DecodedParams(QueryTokens(query), doUrlDecoding, decode), name)
      {
        ParseTokensValues(QueryTokens(query), map[], doUrlDecoding, decode, name);
      }
    }
  }

  /** All or nothing: one token whose name or value does not decode makes
      the whole parse fail, and no store is produced. */
  lemma ParseFailsOnUndecodableToken(query: Option<string>, decode: Decoder, i: nat)
    requires i < |QueryTokens(query)|
    requires var p := SplitToken(QueryTokens(query)[i]);
      decode(p.name).None? || decode(p.value).None?
    ensures Parse(query, true, decode).Failure?
  {
    ParseCharacterisation(query, true, decode);
  }

  /** An absent or empty query leaves no parameters: nothing is set. */
  lemma ParseEmptyQuery(query: Option<string>, doUrlDecoding: bool, decode: Decoder, name: string)
    requires query.None? || query.value == []
    ensures Parse(query, doUrlDecoding, decode) == Success(map[])
    ensures !HasParameters(Parse(query, doUrlDecoding, decode).value)
    ensures !IsParameterSet(Parse(query, doUrlDecoding, decode).value, name)
  {
  }

  /** Without decoding the parse cannot fail, and each stored parameter is
      exactly the name and value substrings of its token. */
  lemma ParseWithoutDecoding(query: Option<string>, decode: Decoder)
    ensures Parse(query, false, decode).Success?
    ensures AllDecode(QueryTokens(query), false, decode)
    ensures forall i :: 0 <= i < |QueryTokens(query)| ==>
      DecodedParams(QueryTokens(query), false, decode)[i] == SplitToken(QueryTokens(query)[i])
  {
    ParseCharacterisation(query, false, decode);
    forall i | 0 <= i < |QueryTokens(query)|
      ensures DecodedParams(QueryTokens(query), false, decode)[i] == SplitToken(QueryTokens(query)[i])
    {
      DecodedParamsAt(QueryTokens(query), false, decode, i);
    }
  }

  /** The query string that lists the parameters as `name=value` tokens
      joined by '&', in order. */
  function Serialise(ps: seq<Param>): string {
    Join(seq(|ps|, i requires 0 <= i < |ps| => ps[i].name + [EqualsSign] + ps[i].value))
  }

  /** Parameters that can be written as `name=value` without escaping: no
      '&' anywhere and no '=' in a name. */
  predicate Serialisable(ps: seq<Param>) {
    forall i :: 0 <= i < |ps| ==>
      Separator !in ps[i].name && Separator !in ps[i].value && EqualsSign !in ps[i].name
  }

  /** Writing parameters out and parsing them again without decoding gives
      back the same parameters in the same order, so the store groups
      exactly them: the keys are their names and each list their values. */
  lemma ParseSerialised(ps: seq<Param>, decode: Decoder)
    requires Serialisable(ps)
    ensures AllDecode(QueryTokens(Some(Serialise(ps))), false, decode)
    ensures DecodedParams(QueryTokens(Some(Serialise(ps))), false, decode) == ps
    ensures Parse(Some(Serialise(ps)), false, decode).Success?
    ensures var s := Parse(Some(Serialise(ps)), false, decode).value;
      && s.Keys == NamesOf(ps)
      && forall name :: Lookup(s, name) == ValuesOf(ps, name)
  {
    var ts := seq(|ps|, i requires 0 <= i < |ps| => ps[i].name + [EqualsSign] + ps[i].value);
    forall i | 0 <= i < |ts|
      ensures ts[i] != "" && Separator !in ts[i]
    {
      assert ts[i][|ps[i].name|] == EqualsSign;
    }
    TokensJoin(ts);
    var query := Some(Serialise(ps));
    assert QueryTokens(query) == ts;
    ParseWithoutDecoding(query, decode);
    var dps := DecodedParams(ts, false, decode);
    forall i | 0 <= i < |ps|
      ensures dps[i] == ps[i]
    {
      SplitTokenJoin(ps[i].name, ps[i].value);
    }
    assert dps == ps;
    ParseCharacterisation(query, false, decode);
  }

  /** Straight after parsing, every stored list is non-empty. */
  lemma ParsedListsNonEmpty(query: Option<string>, doUrlDecoding: bool, decode: Decoder)
    requires Parse(query, doUrlDecoding, decode).Success?
    ensures NoEmptyLists(Parse(query, doUrlDecoding, decode).value)
  {
    ParseCharacterisation(query, doUrlDecoding, decode);
    var s := Parse(query, doUrlDecoding, decode).value;
    forall name | name in s
      ensures s[name] != []
    {
      assert Lookup(s, name) == s[name];
    }
  }

  lemma {:induction false} ParseTokensCount(tokens: seq<string>, s: Store, doUrlDecoding: bool, decode: Decoder)
    requires ParseTokens(tokens, s, doUrlDecoding, decode).Success?
    ensures TotalValues(ParseTokens(tokens, s, doUrlDecoding, decode).value) == TotalValues(s) + |tokens|
    decreases |tokens|
  {
    if tokens != [] {
      var p := DecodeParam(SplitToken(tokens[0]), doUrlDecoding, decode).value;
      TotalValuesAdd(s, p.name, p.value);
      ParseTokensCount(tokens[1..], AddValue(s, p.name, p.value), doUrlDecoding, decode);
    }
  }

  /** A successful parse stores one value per non-empty '&'-segment. */
  lemma ParseCountsValues(query: string, doUrlDecoding: bool, decode: Decoder)
    requires Parse(Some(query), doUrlDecoding, decode).Success?
    ensures TotalValues(Parse(Some(query), doUrlDecoding, decode).value) == |NonEmpty(Segments(query))|
  {
    ParseIsTokenFold(Some(query), doUrlDecoding, decode);
    ParseTokensCount(Tokens(query), map[], doUrlDecoding, decode);
    TokensAreNonEmptySegments(query);
    assert TotalValues(map[]) == 0;
  }

  // ---------------------------------------------------------------------
  // Accessors on a parsed store

  /** getParam(name, d) on a parsed store: the first decoded value given to
      `name`, even when empty, and `d` only when the name never occurs. */
  lemma GetParamAfterParse(query: Option<string>, doUrlDecoding: bool, decode: Decoder, name: string, defaultValue: string)
    requires Parse(query, doUrlDecoding, decode).Success?
    ensures AllDecode(QueryTokens(query), doUrlDecoding, decode)
    ensures var ps := DecodedParams(QueryTokens(query), doUrlDecoding, decode);
      GetParamOr(Parse(query, doUrlDecoding, decode).value, name, defaultValue)
        == Success(if name in NamesOf(ps) then ValuesOf(ps, name)[0] else defaultValue)
  {
    ParseCharacterisation(query, doUrlDecoding, decode);
    var s := Parse(query, doUrlDecoding, decode).value;
    assert name in s ==> Lookup(s, name) == s[name];
  }

  /** getIntParam(name, d) on a parsed store: the first decoded value of
      `name` as an int when it parses, and `d` when the name never occurs or
      that value is not an int. */
  lemma GetIntParamAfterParse(query: Option<string>, doUrlDecoding: bool, decode: Decoder, name: string, defaultValue: Int32)
    requires Parse(query, doUrlDecoding, decode).Success?
    ensures AllDecode(QueryTokens(query), doUrlDecoding, decode)
    ensures var ps := DecodedParams(QueryTokens(query), doUrlDecoding, decode);
      GetIntParamOr(Parse(query, doUrlDecoding, decode).value, name, defaultValue)
        == Success(
             if name in NamesOf(ps) && ParseInt(ValuesOf(ps, name)[0]).Some?
             then ParseInt(ValuesOf(ps, name)[0]).value
             else defaultValue)
  {
    ParseCharacterisation(query, doUrlDecoding, decode);
    var s := Parse(query, doUrlDecoding, decode).value;
    assert name in s ==> Lookup(s, name) == s[name];
  }

  /** getMultipleParam and getMultipleIntParam on a parsed store: all decoded
      values of `name` in query order, and those of them that are ints. */
  lemma GetMultipleParamAfterParse(query: Option<string>, doUrlDecoding: bool, decode: Decoder, name: string)
    requires Parse(query, doUrlDecoding, decode).Success?
    ensures AllDecode(QueryTokens(query), doUrlDecoding, decode)
    ensures var s := Parse(query, doUrlDecoding, decode).value;
      var ps := DecodedParams(QueryTokens(query), doUrlDecoding, decode);
      && GetMultipleParam(s, name).0 == ValuesOf(ps, name)
      && GetMultipleIntParam(s, name).0 == ParsedInts(ValuesOf(ps, name))
  {
    ParseCharacterisation(query, doUrlDecoding, decode);
  }

  /** ParsedInts keeps order: it distributes over concatenation. */
  lemma {:induction false} ParsedIntsAppend(a: seq<string>, b: seq<string>)
    ensures ParsedInts(a + b) == ParsedInts(a) + ParsedInts(b)
    decreases |a|
  {
    if a == [] {
      assert a + b == b;
    } else {
      var ab := a + b;
      assert ab != [] && ab[0] == a[0] && ab[1..] == a[1..] + b;
      assert ParsedInts(ab) == IntsOf(a[0]) + ParsedInts(a[1..] + b);
      ParsedIntsAppend(a[1..], b);
      assert ParsedInts(a) == IntsOf(a[0]) + ParsedInts(a[1..]);
      ConcatAssoc(IntsOf(a[0]), ParsedInts(a[1..]), ParsedInts(b));
    }
  }

  /** ParsedInts keeps exactly the values that parse: an int is in the
      result iff some value parses to it. */
  lemma {:induction false} ParsedIntsMembership(values: seq<string>, x: Int32)
    ensures x in ParsedInts(values) <==> exists i :: 0 <= i < |values| && ParseInt(values[i]) == Some(x)
    decreases |values|
  {
    if values != [] {
      ParsedIntsMembership(values[1..], x);
      if exists i :: 0 <= i < |values| && ParseInt(values[i]) == Some(x) {
        var i :| 0 <= i < |values| && ParseInt(values[i]) == Some(x);
        if i > 0 {
          assert values[1..][i - 1] == values[i];
        }
      }
      if exists i :: 0 <= i < |values[1..]| && ParseInt(values[1..][i]) == Some(x) {
        var i :| 0 <= i < |values[1..]| && ParseInt(values[1..][i]) == Some(x);
        assert values[i + 1] == values[1..][i];
      }
    }
  }

  lemma {:induction false} ParsedIntsLength(values: seq<string>)
    ensures |ParsedInts(values)| <= |values|
    decreases |values|
  {
    if values != [] {
      ParsedIntsLength(values[1..]);
    }
  }

  /** Nothing is dropped exactly when every value parses. */
  lemma {:induction false} ParsedIntsKeepsAll(values: seq<string>)
    ensures |ParsedInts(values)| == |values| <==> forall i :: 0 <= i < |values| ==> ParseInt(values[i]).Some?
    decreases |values|
  {
    if values != [] {
      ParsedIntsKeepsAll(values[1..]);
      ParsedIntsLength(values[1..]);
      assert forall i :: 0 < i < |values| ==> values[i] == values[1..][i - 1];
    }
  }

  // ---------------------------------------------------------------------
  // The lazy insert of getParameterValueList

  /** Reading an unset name with getMultipleParam or getMultipleIntParam
      inserts an empty list: afterwards the name counts as set, and getParam
      and getIntParam on it reach get(0) on the empty list. */
  lemma LazyInsertBreaksGetParam(s: Store, name: string, defaultValue: string, defaultInt: Int32)
    requires name !in s
    ensures GetMultipleIntParam(s, name).1 == GetMultipleParam(s, name).1
    ensures var s' := GetMultipleParam(s, name).1;
      && s'[name] == []
      && !NoEmptyLists(s')
      && IsParameterSet(s', name)
      && HasParameters(s')
      && GetParamOr(s', name, defaultValue) == Failure(IndexOutOfBounds)
      && GetIntParamOr(s', name, defaultInt) == Failure(IndexOutOfBounds)
      && GetParam(s', name) == Failure(IndexOutOfBounds)
      && GetIntParam(s', name) == Failure(IndexOutOfBounds)
  {
  }

  /** hasParameters is true exactly when some name is set, including a name
      set by the lazy insert. */
  lemma HasParametersIffSomeSet(s: Store)
    ensures HasParameters(s) <==> exists name :: IsParameterSet(s, name)
  {
    if HasParameters(s) {
      var name :| name in s;
      assert IsParameterSet(s, name);
    }
  }

  /** Reading a name that is already set changes nothing. */
  lemma MultipleParamOnSetNameKeepsStore(s: Store, name: string)
    requires name in s
    ensures GetMultipleParam(s, name).1 == s
    ensures GetMultipleIntParam(s, name).1 == s
  {
  }

  // ---------------------------------------------------------------------
  // Worked examples

  lemma ExampleMixedTokensOnly()
    ensures Tokens("a=1&b=&c&a=2") == ["a=1", "b=", "c", "a=2"]
  {
    var tokens := ["a=1", "b=", "c", "a=2"];
    assert Join(tokens) == "a=1&b=&c&a=2";
    TokensJoin(tokens);
  }

  lemma ExampleMixedTokensPairs()
    ensures SplitToken("a=1") == Param("a", "1")
    ensures SplitToken("b=") == Param("b", "")
    ensures SplitToken("c") == Param("c", "")
    ensures SplitToken("a=2") == Param("a", "2")
  {
    var t1, t2, t3 := "a=1", "b=", "a=2";
    assert t1[0] == 'a' && t1[1] == '=' && IndexOf(t1, '=') == 1;
    assert t1[..1] == "a" && t1[2..] == "1";
    assert t2[0] == 'b' && t2[1] == '=' && IndexOf(t2, '=') == 1;
    assert t2[..1] == "b";
    assert t3[0] == 'a' && t3[1] == '=' && IndexOf(t3, '=') == 1;
    assert t3[..1] == "a" && t3[2..] == "2";
    assert EqualsSign !in "c";
  }

  lemma ExampleMixedTokensSplit()
    ensures Tokens("a=1&b=&c&a=2") == ["a=1", "b=", "c", "a=2"]
    ensures SplitToken("a=1") == Param("a", "1")
    ensures SplitToken("b=") == Param("b", "")
    ensures SplitToken("c") == Param("c", "")
    ensures SplitToken("a=2") == Param("a", "2")
  {
    ExampleMixedTokensOnly();
    ExampleMixedTokensPairs();
  }

  lemma DecodedParamsOfFour(tokens: seq<string>, decode: Decoder)
    requires |tokens| == 4
    ensures AllDecode(tokens, false, decode)
    ensures DecodedParams(tokens, false, decode)
      == [SplitToken(tokens[0]), SplitToken(tokens[1]), SplitToken(tokens[2]), SplitToken(tokens[3])]
  {
    var ps := DecodedParams(tokens, false, decode);
    forall i | 0 <= i < 4
      ensures ps[i] == SplitToken(tokens[i])
    {
      DecodedParamsAt(tokens, false, decode, i);
    }
  }

  // The query is a parameter fixed by `requires` rather than a literal in
  // the ensures, so the verifier does not unfold the parse on the literal.
  lemma ExampleMixedTokensParams(query: string, decode: Decoder)
    requires query == "a=1&b=&c&a=2"
    ensures AllDecode(QueryTokens(Some(query)), false, decode)
    ensures DecodedParams(QueryTokens(Some(query)), false, decode)
      == [Param("a", "1"), Param("b", ""), Param("c", ""), Param("a", "2")]
  {
    ExampleMixedTokensSplit();
    ParseWithoutDecoding(Some(query), decode);
    var tokens := QueryTokens(Some(query));
    assert tokens == ["a=1", "b=", "c", "a=2"];
    var ps := DecodedParams(tokens, false, decode);
    DecodedParamsOfFour(tokens, decode);
  }

  lemma ExampleMixedTokensGrouping()
    ensures var ps := [Param("a", "1"), Param("b", ""), Param("c", ""), Param("a", "2")];
      && NamesOf(ps) == {"a", "b", "c"}
      && ValuesOf(ps, "a") == ["1", "2"]
      && ValuesOf(ps, "b") == [""]
      && ValuesOf(ps, "c") == [""]
  {
    var ps := [Param("a", "1"), Param("b", ""), Param("c", ""), Param("a", "2")];
    assert ps[0].name == "a" && ps[1].name == "b" && ps[2].name == "c";
  }

  lemma ExampleStoreExtensional(s: Store)
    requires s.Keys == {"a", "b", "c"}
    requires s["a"] == ["1", "2"] && s["b"] == [""] && s["c"] == [""]
    ensures s == map["a" := ["1", "2"], "b" := [""], "c" := [""]]
  {
  }

  /** `a=1&b=&c&a=2`: repeated `a` accumulates, `b=` and bare `c` are set
      with empty values. The query is a parameter fixed by `requires` rather
      than a literal in the ensures, so the verifier does not unfold the
      parse on the literal. */
  lemma ExampleMixedTokens(query: string, decode: Decoder)
    requires query == "a=1&b=&c&a=2"
    ensures Parse(Some(query), false, decode)
      == Success(map["a" := ["1", "2"], "b" := [""], "c" := [""]])
  {
    ExampleMixedTokensParams(query, decode);
    ExampleMixedTokensGrouping();
    ParseCharacterisation(Some(query), false, decode);
    var s := Parse(Some(query), false, decode).value;
    var ps := DecodedParams(QueryTokens(Some(query)), false, decode);
    assert s.Keys == {"a", "b", "c"};
    assert Lookup(s, "a") == ValuesOf(ps, "a");
    assert Lookup(s, "b") == ValuesOf(ps, "b");
    assert Lookup(s, "c") == ValuesOf(ps, "c");
    assert s["a"] == ["1", "2"] && s["b"] == [""] && s["c"] == [""];
    ExampleStoreExtensional(s);
    assert Parse(Some(query), false, decode) == Success(s);
  }

  /** `3`, `bad`, `5` as ints: the invalid value is dropped, order kept. */
  lemma ExampleMultipleInts()
    ensures ParsedInts(["3", "bad", "5"]) == [3, 5]
  {
    var values := ["3", "bad", "5"];
    assert DigitsValue("3") == 3 && DigitsValue("5") == 5;
    assert IntsOf("3") == [3] && IntsOf("5") == [5];
    assert !IsDigit('b') && IntsOf("bad") == [];
    assert values[1..][1..] == ["5"] && values[1..][1..][1..] == [];
    assert ParsedInts(["5"]) == [5];
    assert ParsedInts(values[1..]) == [5];
  }

  lemma ExampleDecodeFailureTokens()
    ensures Tokens("x=%41%42&y=%ZZ") == ["x=%41%42", "y=%ZZ"]
    ensures SplitToken("y=%ZZ") == Param("y", "%ZZ")
  {
    var tokens := ["x=%41%42", "y=%ZZ"];
    assert Join(tokens) == "x=%41%42&y=%ZZ";
    TokensJoin(tokens);
    var t := "y=%ZZ";
    assert t[0] == 'y' && t[1] == '=' && IndexOf(t, '=') == 1;
    assert t[..1] == "y" && t[2..] == "%ZZ";
  }

  /** `x=%41%42&y=%ZZ` fails as a whole when `%ZZ` does not decode. */
  lemma ExampleDecodeFailure(decode: Decoder)
    requires decode("%ZZ") == None
    ensures Parse(Some("x=%41%42&y=%ZZ"), true, decode).Failure?
  {
    ExampleDecodeFailureTokens();
    ParseFailsOnUndecodableToken(Some("x=%41%42&y=%ZZ"), decode, 1);
  }
}

=== FILE: wrappers.dfy ===
/** An optional value and a value-or-error result, shared by the model. */
module Wrappers {

  /** A value that may be missing; stands in for a Java reference that may be null. */
  datatype Option<+T> = None | Some(value: T)

  /** Either a computed value or an error, for operations that throw in Java. */
  datatype Result<+T, +E> = Success(value: T) | Failure(error: E)
}
